=== FILE: README.md ===
# Lab 08 character locomotion, modelled in Dafny

This project models the character-locomotion logic of the Lab 08 exercises of
an Ogre/OIS courseware repository. Everything else in the repository is engine
setup.

- **`AnimationObject`** (smooth-rotation lab) is a walk/rotate/idle state
  machine. Its state is a velocity, a heading, a rotation-blend timer bounded
  by 0.3 s, and the distance left to a target point, which snaps to zero below
  0.1. It is driven by `move`, `moveToPoint`, `changeState` and `update`.
- **The input controller of the same lab** steers the professor with the arrow
  keys and the camera with W/A/S/D.
- **`NinjaController`** patrols random points through a one-element waypoint
  queue. It chases the professor when the professor comes close.
- **`MainListener` and `ProfessorController`** are two copies of a FIFO
  waypoint walker. Each consumes a fixed route, counts the leg's distance down
  every frame, snaps onto each waypoint and goes idle at the end. They differ in
  what they clear on arrival.
- **The correct-facing lab's input controller** keeps the camera move vector
  and the flag that ends the render loop.

Every per-frame callback is a pure function from the controller state, and the
frame time, to the next state. The controllers are immutable records.

Modules:

| file | module | contents |
|---|---|---|
| geometry.dfy | `Geometry` | `Vec3` over reals, opaque `Quat`, scene `Node`, the `Engine` record of geometric primitives and its `Valid` axioms |
| keyboard.dfy | `Keyboard` | keys, key events, W/A/S/D camera-move bookkeeping |
| animation.dfy | `Animation` | `AnimationObject` and its operations, command runs |
| practice08.dfy | `Practice08` | arrow-key input controller, `NinjaController` |
| waypoints.dfy | `Waypoints` | the walker state the two waypoint listeners share, popping the queue |
| walking_around_professor.dfy | `WalkingAroundProfessor` | `MainListener` |
| correct_facing.dfy | `CorrectFacing` | `ProfessorController`, the ESC/camera `InputController`, and the comparison of the two walkers |

**Geometry is kept opaque.** The engine's `normalise`, `getRotationTo`,
`Quaternion::Slerp`, quaternion product and `zAxis` are fields of an `Engine`
value passed to every operation. The model assumes only what `Valid` states:

- a length is never negative;
- a length is zero exactly for the zero vector;
- normalising leaves a vector zero exactly when it was zero.

Single-precision floats are modelled as reals. The constants `0.3f` and `0.1f`
are therefore exactly 3/10 and 1/10.

## Model

| member | source | states |
|---|---|---|
| Animation.SetUp | Lab08/Practice08/main.cpp:19-65 | a freshly bound controller is in no state, with timer 0, speed 0, no velocity or heading, and +Z as its reference look. It stores the given idle and walk clips, plays the idle one, is not walking to a point, and satisfies the controller invariant |
| Animation.BasicRotate | Lab08/Practice08/main.cpp:44-49 | the node is turned by the rotation from +Z to the new look: its orientation becomes the old one composed with that rotation, and the position stays. The reference look becomes that rotation's z axis. Nothing else changes, so the invariant is kept |
| Animation.ChangeState | Lab08/Practice08/main.cpp:138-167 | a zero heading means Idle with the idle clip and no blend. A heading whose normalised value equals the previous one means Walking, with the blend timer and both blend rotations untouched. Any other heading starts a blend: Rotating, timer 0, from the current orientation to the rotation towards the heading. It reports true exactly when it leaves the controller Rotating |
| Animation.Move | Lab08/Practice08/main.cpp:75-86 | the impulse is added to the velocity and the heading becomes the normalised velocity. Any walk to a point is dropped, so `IsMovingToPoint` is false. The controller is Idle, with the idle clip, exactly when the new velocity is zero; otherwise the walk clip plays. It is Rotating exactly when the heading changed, and Walking exactly when a non-zero velocity keeps the old heading. A started blend has timer 0 and runs from the current orientation to the rotation from the reference look to the heading; otherwise the timer and both blend rotations are kept. The node, target, speed, reference look and clip names are untouched, and the invariant is kept |
| Animation.MoveToPoint | Lab08/Practice08/main.cpp:88-98 | velocity becomes zero and the target is recorded. The distance left is the non-negative length of target minus position, and the heading is its normalised direction. The controller is moving to a point, and not Idle, exactly when the target differs from the current position. It starts a blend exactly when it moves and the heading differs from the old one after normalising, and is Walking exactly when it moves along the old heading; the blend runs from the current orientation to the rotation towards the heading, with timer 0. Without a blend the timer and blend rotations are kept. Idle plays the idle clip, anything else the walk clip. The node, speed, reference look and clip names are untouched |
| Animation.Update | Lab08/Practice08/main.cpp:100-136 | only a finished blend changes the state. While still Rotating the timer is below 0.3 and the orientation is the slerp between the blend rotations at the timer's fraction of 0.3. A finished blend hands over to Walking with timer 0 and the destination orientation. A walking frame leaves the timer alone. Walking towards a point counts the distance down by speed times frame time. The walk goes on exactly when at least 0.1 would be left, so the distance is 0 or at least 0.1. Otherwise the controller arrives: the node is put exactly on the target, with no step that frame. Otherwise the node steps along the heading and faces it. Idle and no-state controllers are unchanged. A frame changes nothing but the node, the state, the timer and the distance left |
| Animation.IsMovingToPoint | Lab08/Practice08/main.cpp:51 | under the invariant the controller is moving to a point exactly when the distance left is not zero, so an arrival, which sets it to zero, ends the walk to the point |
| Animation.SetSpeed | Lab08/Practice08/main.cpp:54 | only the walking speed changes, so the invariant is kept |
| Animation.ClampedTimer | Lab08/Practice08/main.cpp:107 | the timer `update` reads is never beyond 0.3: it is the stored timer when that is at most 0.3, and exactly 0.3 otherwise |
| Animation.ClampIsIdentityWhenReachable | Lab08/Practice08/main.cpp:106-107 | under the controller invariant the timer clamp in `update` never fires |
| Animation.RunKeepsInv | Lab08/Practice08/main.cpp:75-167 | any sequence of moves, point targets and frames of non-negative length keeps the blend timer in [0, 0.3) and the distance left never negative |
| Practice08.NewInputController | Lab08/Practice08/main.cpp:197-209 | the professor's controller starts with speed 100 and the "Idle"/"Walk" clips. It starts at rest: no state, no velocity or heading, not moving to a point, and playing "Idle". It satisfies the invariant, and the camera move vector starts at zero |
| Practice08.KeyPressed | Lab08/Practice08/main.cpp:229-247 | W/A/S/D change the camera move vector by one unit on one axis. An arrow key moves the professor by its impulse, adding it to the velocity. Every other key leaves the professor as it was |
| Practice08.KeyReleased | Lab08/Practice08/main.cpp:249-267 | W/A/S/D take the camera step back. An arrow key moves the professor by the opposite impulse. Every other key leaves the professor as it was |
| Practice08.PressReleaseRestoresVelocity | Lab08/Practice08/main.cpp:229-267 | pressing then releasing the same key restores the professor's velocity and the camera move vector and leaves the professor's node where it was; a non-arrow key round trip changes nothing |
| Practice08.InputFrameStarted | Lab08/Practice08/main.cpp:215-225 | a frame advances the professor by exactly one `Update` and leaves the camera move vector alone; the velocity is kept and, for a non-negative frame time, so is the invariant |
| Practice08.RandomVector | Lab08/Practice08/main.cpp:350-353 | a random patrol point lies on the ground plane with coordinates in [-250, 249] |
| Practice08.NextLocation | Lab08/Practice08/main.cpp:338-348 | on an empty queue nothing changes and the result is false. Otherwise the ninja is sent to the front waypoint and a fresh random point replaces it at the back. The queue length never changes and queued points stay on the patrol ground |
| Practice08.NewNinjaController | Lab08/Practice08/main.cpp:309-321 | the new ninja plays "Walk" as both clips, is turned by the rotation from +Z to -Z, and walks at 80. It sets off at once towards the first random point: no velocity, the normalised direction to that point as heading, a distance left equal to that point's distance, and moving to a point exactly when the point is not where it stands. Having had no heading before, it is then Idle if the point is where it stands and otherwise Rotating, in a blend with timer 0 from its orientation towards the heading. Exactly the second random point is queued, and the invariant holds |
| Practice08.NinjaFrameStarted | Lab08/Practice08/main.cpp:323-336 | a frame always returns true and keeps the queue length. The ninja is first advanced by one `Update`. Within 100 of the professor it is then re-targeted at the professor and the queue is untouched. Otherwise a ninja that is no longer moving to a point takes the next patrol point through `nextLocation`, and one still on its way is only updated |
| Practice08.RunNinjaKeepsQueue | Lab08/Practice08/main.cpp:323-348 | any run of frames keeps the queue's length and keeps every queued point on the patrol ground |
| Practice08.PatrolNeverRunsDry | Lab08/Practice08/main.cpp:309-348 | from construction on, after any frames, the queue holds exactly one point and `nextLocation` returns true |
| Keyboard.CameraPressed | Lab08/WalkingAroundProfessorCorrectFacing/main.cpp:44-56 | a key press changes the camera move vector by exactly that key's unit step (zero for other keys) |
| Keyboard.CameraReleased | Lab08/WalkingAroundProfessorCorrectFacing/main.cpp:58-71 | a key release takes exactly that key's unit step back |
| Keyboard.CameraPressReleaseRestores | Lab08/WalkingAroundProfessorCorrectFacing/main.cpp:44-71 | press then release, or release then press, of the same key restores the camera move vector |
| Waypoints.TakeNext | Lab08/WalkingAroundProfessor/main.cpp:96-101 | an empty queue gives false and no change. Otherwise the front waypoint is removed and becomes the destination, and the distance is its length from the current position. The direction is zero exactly when the waypoint is the current position, and positive distance comes exactly with a non-zero direction |
| Waypoints.SuffixOfTail | Lab08/WalkingAroundProfessor/main.cpp:98-99 | taking the front of what is left of a route leaves a shorter remainder, and the waypoint taken is the next one in route order |
| WalkingAroundProfessor.NewMainListener | Lab08/WalkingAroundProfessor/main.cpp:40-53 | the listener walks at 80, has no direction, and queues exactly four waypoints, the last being the origin |
| WalkingAroundProfessor.NextLocation | Lab08/WalkingAroundProfessor/main.cpp:93-107 | an empty queue gives false and no change. Otherwise exactly the front waypoint is removed and becomes the destination. The distance is its length from the position, the direction is the normalised offset, and the node faces the new direction |
| WalkingAroundProfessor.FrameStarted | Lab08/WalkingAroundProfessor/main.cpp:55-92 | at most the front waypoint is consumed per frame. With no direction the front waypoint, if any, is taken: it becomes the destination, the distance and direction are measured from the position, the node faces the new direction, and Walk is chosen. Otherwise the distance drops by speed times frame time. At or below zero the node is put exactly on the destination. If waypoints remain, the next one is taken at once, measured from that destination, the node turns to face the new leg, and the clip is kept. On an empty queue the destination is cleared, the direction and orientation kept, and Idle chosen. Above zero the node steps by direction times the move |
| WalkingAroundProfessor.TakingKeepsInv | Lab08/WalkingAroundProfessor/main.cpp:93-107 | taking the next waypoint from any unvisited tail of the route yields a listener in the route invariant, whether or not the new leg has length |
| WalkingAroundProfessor.FrameIdleInv | Lab08/WalkingAroundProfessor/main.cpp:58-66 | a frame with no direction keeps the route invariant, whether or not a waypoint is left |
| WalkingAroundProfessor.FrameArriveInv | Lab08/WalkingAroundProfessor/main.cpp:69-82 | a frame that ends the leg keeps the route invariant, both when the next waypoint is taken and when the queue is empty |
| WalkingAroundProfessor.FrameStepInv | Lab08/WalkingAroundProfessor/main.cpp:83-86 | a frame that steps inside the leg keeps the route invariant |
| WalkingAroundProfessor.FramePreservesInv | Lab08/WalkingAroundProfessor/main.cpp:55-107 | a frame keeps the route invariant: the queue is the unvisited tail of the route, the destination is the last waypoint taken, and a direction without distance left survives only at the end of the route on the destination |
| WalkingAroundProfessor.RunKeepsInv | Lab08/WalkingAroundProfessor/main.cpp:48-101 | any run of frames keeps the route invariant, so waypoints are visited in constructor order and each is consumed exactly once |
| WalkingAroundProfessor.ArrivesAgain | Lab08/WalkingAroundProfessor/main.cpp:69-82 | with the queue empty and no distance left, a frame of non-negative length puts the professor on the destination again, clears the destination, keeps the direction, selects Idle, and leaves the distance at or below zero |
| WalkingAroundProfessor.RestsAtOrigin | Lab08/WalkingAroundProfessor/main.cpp:69-86 | once the route is used up the professor is on the origin, and every later frame of non-negative length puts it back there, selecting Idle again while the old direction is kept |
| WalkingAroundProfessor.ExhaustedQueueSnapsToOrigin | Lab08/WalkingAroundProfessor/main.cpp:71-81 | because the destination rather than the direction is cleared, a walker arriving with an empty queue is moved to the origin on the next frame wherever its last waypoint was |
| CorrectFacing.NewInputController | Lab08/WalkingAroundProfessorCorrectFacing/main.cpp:20-29 | the camera move vector starts at zero and the loop is set to continue |
| CorrectFacing.KeyPressed | Lab08/WalkingAroundProfessorCorrectFacing/main.cpp:44-56 | W/A/S/D step the camera move vector; the continue flag survives exactly when the key is not ESC |
| CorrectFacing.KeyReleased | Lab08/WalkingAroundProfessorCorrectFacing/main.cpp:58-71 | W/A/S/D take the camera step back; the continue flag survives exactly when the key is not ESC |
| CorrectFacing.InputFrameStarted | Lab08/WalkingAroundProfessorCorrectFacing/main.cpp:32-40 | a frame asks the engine to go on exactly when the continue flag is set; `EscapeEndsTheLoop` says when that is |
| CorrectFacing.EscapeEndsTheLoop | Lab08/WalkingAroundProfessorCorrectFacing/main.cpp:32-71 | after any key events, `frameStarted` returns true exactly when the flag was set and no event was an ESC press or release |
| CorrectFacing.PressReleaseRestoresCamera | Lab08/WalkingAroundProfessorCorrectFacing/main.cpp:44-71 | pressing then releasing the same key restores the camera move vector |
| CorrectFacing.NewProfessorController | Lab08/WalkingAroundProfessorCorrectFacing/main.cpp:124-137 | the controller walks at 80, has no direction, and queues five waypoints, the last being the origin |
| CorrectFacing.NextLocation | Lab08/WalkingAroundProfessorCorrectFacing/main.cpp:177-194 | an empty queue gives false and no change. Otherwise the front waypoint is popped into the destination and the distance is its length from the position. The facing step is empty, so the node is untouched |
| CorrectFacing.FrameStarted | Lab08/WalkingAroundProfessorCorrectFacing/main.cpp:139-175 | at most the front waypoint is consumed per frame, and the orientation never changes. With no direction the front waypoint, if any, is taken: it becomes the destination, the distance and direction are measured from the position, and Walk is chosen. At or below zero distance the node is put on the destination and the direction cleared. If waypoints remain, the next one is taken at once, measured from that destination, and the clip is kept. An empty queue selects Idle instead and keeps the reduced distance. Above zero the node steps by direction times speed times frame time |
| CorrectFacing.TakingKeepsInv | Lab08/WalkingAroundProfessorCorrectFacing/main.cpp:177-194 | taking the next waypoint from any unvisited tail of the route yields a controller in the route invariant |
| CorrectFacing.FrameIdleInv | Lab08/WalkingAroundProfessorCorrectFacing/main.cpp:141-149 | a frame with no direction keeps the route invariant |
| CorrectFacing.FrameArriveInv | Lab08/WalkingAroundProfessorCorrectFacing/main.cpp:154-165 | a frame that ends the leg keeps the route invariant, both when the next waypoint is taken and when the queue is empty |
| CorrectFacing.FrameStepInv | Lab08/WalkingAroundProfessorCorrectFacing/main.cpp:166-169 | a frame that steps inside the leg keeps the route invariant |
| CorrectFacing.FramePreservesInv | Lab08/WalkingAroundProfessorCorrectFacing/main.cpp:139-194 | a frame keeps the route invariant: the queue is the unvisited tail of the route, the destination is the last waypoint taken, the controller stands on it when it has no direction, and a direction always has distance left |
| CorrectFacing.RunKeepsInv | Lab08/WalkingAroundProfessorCorrectFacing/main.cpp:129-194 | any run of frames keeps the route invariant and the professor's orientation |
| CorrectFacing.RestsAtLastWaypoint | Lab08/WalkingAroundProfessorCorrectFacing/main.cpp:154-165 | once the route is used up and the direction cleared, the professor stands on the last waypoint and every later frame changes nothing |
| CorrectFacing.ArrivalOnEmptyQueue | Lab08/WalkingAroundProfessorCorrectFacing/main.cpp:154-165 | arriving with an empty queue, both walkers put the professor on the destination and select Idle. `MainListener` keeps its direction and clears the destination; `ProfessorController` clears the direction and keeps the destination |

## Left out

- `LectureApp::go`, `_drawGridPlane`, `_setLights`, `_drawGroundPlane` in every lab: engine boot, window, resources and meshes, with no logic of their own. The nodes they create enter the model as the `Node` arguments of the constructors.
- OIS device creation and callback wiring, and `capture()` calls: input-device plumbing.
- Mouse handlers (`mouseMoved`, `mousePressed`, `mouseReleased`) and the camera's `moveRelative`, `yaw` and `pitch`: they only forward deltas to the engine camera.
- The internals of `normalise`, `getRotationTo`, `Slerp`, quaternion product and `zAxis`: engine floating-point geometry, kept opaque behind `Engine` and `Valid`.
- Animation playback time (`addTime`), `setLoop` and `setEnabled`: engine-held clip state. The model records only the name of the clip being played.
- `rand()` itself: its results are the `Roll` inputs of `RandomVector`. The source does not fix the order in which the two calls are evaluated; with arbitrary rolls that order does not matter.
- `mContinue` of the smooth-rotation lab's input controller: it is never initialised, so the value `frameStarted` returns is undefined. ESC therefore changes nothing in that model.
- `ESCListener` of the first waypoint lab: it keeps the loop going exactly while ESC is not held, reading the live keyboard state, and has no state of its own.
- Lab04, Lab05, Lab06, Lab12 and Lab14: window creation, camera presets, a trig-based orbit, scene setup with state-manager delegation, and light toggling. This is engine glue with float accumulation.
- Animation.Update: float rounding is not modelled. The blend ends when 3/10 is reached, whereas the source compares against the single-precision value nearest to 0.3.
- Practice08.PressReleaseRestoresVelocity: holds exactly over the reals. In single precision, adding and then subtracting a unit impulse may round.
- WalkingAroundProfessor.NewMainListener: the distance, destination and current clip are not initialised by the source. The model starts them at 0, the origin and no clip. The first frame always writes them before reading them.
- CorrectFacing.NewProfessorController: the same uninitialised fields, given the same starting values.

=== FILE: animation.dfy ===
/**
  The walk/rotate/idle locomotion controller `AnimationObject` of Lab 08:
  a three-state machine (plus the constructor's "no state") whose real-valued
  state is a velocity, a heading, a rotation-blend timer and the distance
  left to a target point. Commands (`Move`, `MoveToPoint`) choose a heading
  through `ChangeState`; `Update` advances one frame.
 */
module Animation {
  import opened Geometry

  /** `NoState` is the value the constructor leaves until the first command. */
  datatype ObjState = NoState | Idle | Walking | Rotating

  /** Length of the rotation blend, in seconds. */
  const RotationTime: real := 0.3
  /** A walk towards a point ends once less than this distance is left. */
  const ArrivalEpsilon: real := 0.1

  datatype AnimationObject = AnimationObject(
    node: Node,
    state: ObjState,
    rotatingTime: real,
    velocity: Vec3,
    dirVector: Vec3,
    speed: real,
    srcQuat: Quat,
    destQuat: Quat,
    targetDistance: real,
    targetPos: Vec3,
    basicLook: Vec3,
    idleClip: string,
    walkClip: string,
    clip: string)

  /** What holds of every controller reachable by commands and frames of
      non-negative length: the blend timer stays in [0, RotationTime) and the
      distance left to the target is never negative. */
  ghost predicate Inv(a: AnimationObject) {
    && 0.0 <= a.rotatingTime < RotationTime
    && 0.0 <= a.targetDistance
  }

  /** `isMovingToPoint`: some distance to the target is left. Under `Inv` the
      only other value the distance takes is exactly zero. */
  predicate IsMovingToPoint(a: AnimationObject): (r: bool)
    ensures Inv(a) ==> (r <==> a.targetDistance != 0.0)
  {
    a.targetDistance > 0.0
  }

  /** The constructor followed by `setData`: the controller is bound to a scene
      node, learns its idle and walk clips, and starts playing the first. */
  function SetUp(node: Node, idleClip: string, walkClip: string): (a: AnimationObject)
    ensures a.node == node && a.state == NoState && a.clip == idleClip
    ensures a.velocity == Zero && a.dirVector == Zero && !IsMovingToPoint(a)
    ensures a.idleClip == idleClip && a.walkClip == walkClip
    ensures a.basicLook == UnitZ && a.speed == 0.0 && a.rotatingTime == 0.0
    ensures Inv(a)
  {
    AnimationObject(node, NoState, 0.0, Zero, Zero, 0.0, QuatZero, QuatZero,
                    0.0, Zero, UnitZ, idleClip, walkClip, idleClip)
  }

  /** `setSpeed`: only the walking speed changes, so the invariant is kept. */
  function SetSpeed(a: AnimationObject, speed: real): (r: AnimationObject)
    ensures r.speed == speed && r == a.(speed := r.speed)
    ensures Inv(a) ==> Inv(r)
  {
    a.(speed := speed)
  }

  /** `basicRotate`: turns the node by the rotation from +Z to `toLook` and
      takes that rotation's z axis as the reference look vector. */
  function BasicRotate(g: Engine, a: AnimationObject, toLook: Vec3): (r: AnimationObject)
    ensures r.node.position == a.node.position
    ensures r.node.orientation == g.multiply(a.node.orientation, g.rotationTo(UnitZ, toLook))
    ensures r.basicLook == g.zAxis(g.rotationTo(UnitZ, toLook))
    ensures r == a.(node := r.node, basicLook := r.basicLook)
    ensures Inv(a) ==> Inv(r)
  {
    var rot := g.rotationTo(UnitZ, toLook);
    a.(node := a.node.(orientation := g.multiply(a.node.orientation, rot)),
       basicLook := g.zAxis(rot))
  }

  /** `changeState(before, afterVelocity)`: picks the state for a new heading and
      reports whether a rotation blend was started. */
  function ChangeState(g: Engine, a: AnimationObject, before: Vec3, after: Vec3)
    : (r: (AnimationObject, bool))
    ensures after == Zero ==>
      !r.1 && r.0 == a.(state := Idle, clip := a.idleClip)
    ensures after != Zero && g.normalised(before) == g.normalised(after) ==>
      !r.1 && r.0 == a.(state := Walking, clip := a.walkClip)
    ensures after != Zero && g.normalised(before) != g.normalised(after) ==>
      && r.1
      && r.0 == a.(state := Rotating, clip := a.walkClip, rotatingTime := 0.0,
                   srcQuat := a.node.orientation,
                   destQuat := g.rotationTo(a.basicLook, g.normalised(after)))
    ensures r.1 <==> r.0.state == Rotating
    ensures Inv(a) ==> Inv(r.0)
  {
    if after == Zero then
      (a.(state := Idle, clip := a.idleClip), false)
    else
      var walking := a.(state := Walking, clip := a.walkClip);
      var moveDir := g.normalised(after);
      if g.normalised(before) == moveDir then
        (walking, false)
      else
        (walking.(srcQuat := a.node.orientation,
                  destQuat := g.rotationTo(a.basicLook, moveDir),
                  state := Rotating,
                  rotatingTime := 0.0), true)
  }

  /** `move(addVelocity)`: a key-driven impulse. The heading becomes the
      normalised new velocity, and any walk towards a point is abandoned. The
      rotation test compares the normalised old velocity with the new heading
      normalised a second time, exactly as the source does. */
  function Move(g: Engine, a: AnimationObject, addVelocity: Vec3): (r: AnimationObject)
    requires Valid(g)
    ensures r.velocity == Add(a.velocity, addVelocity)
    ensures r.dirVector == g.normalised(r.velocity)
    ensures !IsMovingToPoint(r) && r.targetDistance == 0.0
    ensures r.state == Idle <==> r.velocity == Zero
    ensures r.state == Rotating <==>
      r.velocity != Zero && g.normalised(a.velocity) != g.normalised(r.dirVector)
    ensures r.state == Walking <==>
      r.velocity != Zero && g.normalised(a.velocity) == g.normalised(r.dirVector)
    // a started blend runs from the current orientation to the new heading
    ensures r.state == Rotating ==>
      && r.rotatingTime == 0.0 && r.srcQuat == a.node.orientation
      && r.destQuat == g.rotationTo(a.basicLook, g.normalised(r.dirVector))
    ensures r.state != Rotating ==>
      r.srcQuat == a.srcQuat && r.destQuat == a.destQuat && r.rotatingTime == a.rotatingTime
    ensures r.clip == (if r.state == Idle then a.idleClip else a.walkClip)
    ensures r.node == a.node && r.targetPos == a.targetPos && r.speed == a.speed
    ensures r.basicLook == a.basicLook && r.idleClip == a.idleClip && r.walkClip == a.walkClip
    ensures Inv(a) ==> Inv(r)
  {
    var before := a.velocity;
    var velocity := Add(a.velocity, addVelocity);
    var after := g.normalised(velocity);
    var changed := ChangeState(g, a.(velocity := velocity, dirVector := after), before, after).0;
    changed.(targetDistance := 0.0)
  }

  /** `moveToPoint(pos)`: walk towards `pos`. Any key-driven velocity is
      dropped and the distance left becomes the length of the displacement. */
  function MoveToPoint(g: Engine, a: AnimationObject, pos: Vec3): (r: AnimationObject)
    requires Valid(g)
    ensures r.velocity == Zero && r.targetPos == pos
    ensures r.targetDistance == g.length(Sub(pos, a.node.position)) >= 0.0
    ensures r.dirVector == g.normalised(Sub(pos, a.node.position))
    ensures IsMovingToPoint(r) <==> pos != a.node.position
    ensures r.state == Idle <==> pos == a.node.position
    ensures r.state == Rotating <==>
      pos != a.node.position && g.normalised(a.dirVector) != g.normalised(r.dirVector)
    ensures r.state == Walking <==>
      pos != a.node.position && g.normalised(a.dirVector) == g.normalised(r.dirVector)
    // a started blend runs from the current orientation to the new heading
    ensures r.state == Rotating ==>
      && r.rotatingTime == 0.0 && r.srcQuat == a.node.orientation
      && r.destQuat == g.rotationTo(a.basicLook, g.normalised(r.dirVector))
    ensures r.state != Rotating ==>
      r.srcQuat == a.srcQuat && r.destQuat == a.destQuat && r.rotatingTime == a.rotatingTime
    ensures r.clip == (if r.state == Idle then a.idleClip else a.walkClip)
    ensures r.node == a.node && r.speed == a.speed
    ensures r.basicLook == a.basicLook && r.idleClip == a.idleClip && r.walkClip == a.walkClip
    ensures Inv(a) ==> Inv(r)
  {
    var direction := Sub(pos, a.node.position);
    var distance := g.length(direction);
    var heading := g.normalised(direction);
    var changed := ChangeState(g, a.(targetPos := pos, targetDistance := distance), a.dirVector, heading).0;
    changed.(dirVector := heading, velocity := Zero)
  }

  /** The blend timer as `update` reads it: never beyond `RotationTime`. */
  function ClampedTimer(t: real): (r: real)
    ensures r <= RotationTime
    ensures t <= RotationTime ==> r == t
    ensures t > RotationTime ==> r == RotationTime
  {
    if t > RotationTime then RotationTime else t
  }

  /** `update(frameTime)`: one frame of the state machine. A rotation blend
      advances and, once its time is up, hands over to walking with the
      destination orientation; a walk moves along the heading, or ends on the
      exact target point when less than `ArrivalEpsilon` would be left. */
  function Update(g: Engine, a: AnimationObject, frameTime: real): (r: AnimationObject)
    // only a finished blend changes the state
    ensures r.state ==
      (if a.state == Rotating && ClampedTimer(a.rotatingTime) + frameTime >= RotationTime
       then Walking else a.state)
    ensures a.state !in {Rotating, Walking} ==> r == a
    // rotating: the position stays, the timer stays below the blend length
    ensures a.state == Rotating ==>
      && r.node.position == a.node.position
      && r.targetDistance == a.targetDistance
      && (r.state == Walking ==> r.rotatingTime == 0.0 && r.node.orientation == a.destQuat)
      && (r.state == Rotating ==> r.rotatingTime == ClampedTimer(a.rotatingTime) + frameTime)
    ensures r.state == Rotating ==> r.rotatingTime < RotationTime
    ensures a.state == Walking ==> r.rotatingTime == a.rotatingTime
    ensures r.state == Rotating ==>
      r.node.orientation == g.slerp(r.rotatingTime / RotationTime, a.srcQuat, a.destQuat)
    // a frame touches nothing but the node, the state, the timer and the distance left
    ensures r == a.(node := r.node, state := r.state, rotatingTime := r.rotatingTime,
                    targetDistance := r.targetDistance)
    // walking towards a point: the walk goes on exactly when at least
    // ArrivalEpsilon would be left after this frame's step
    ensures a.state == Walking && IsMovingToPoint(a) ==>
      (IsMovingToPoint(r) <==> a.targetDistance - a.speed * frameTime >= ArrivalEpsilon)
    ensures a.state == Walking && IsMovingToPoint(a) ==>
      r.targetDistance == 0.0 || r.targetDistance >= ArrivalEpsilon
    ensures a.state == Walking && IsMovingToPoint(a) && !IsMovingToPoint(r) ==>
      r.node == a.node.(position := a.targetPos)
    ensures a.state == Walking && IsMovingToPoint(r) ==>
      r.targetDistance == a.targetDistance - a.speed * frameTime
    ensures a.state == Walking && !IsMovingToPoint(a) ==> r.targetDistance == a.targetDistance
    // walking without arriving: one step along the heading, facing it
    ensures a.state == Walking && (IsMovingToPoint(r) || !IsMovingToPoint(a)) ==>
      r.node == Node(Add(a.node.position, Scale(a.dirVector, a.speed * frameTime)),
                     g.rotationTo(a.basicLook, a.dirVector))
    ensures Inv(a) && frameTime >= 0.0 ==> Inv(r)
    ensures r.velocity == a.velocity && r.dirVector == a.dirVector && r.clip == a.clip
  {
    if a.state == Rotating then
      var t := ClampedTimer(a.rotatingTime) + frameTime;
      var blended := a.node.(orientation := g.slerp(t / RotationTime, a.srcQuat, a.destQuat));
      if t >= RotationTime then
        a.(rotatingTime := 0.0, state := Walking, node := blended.(orientation := a.destQuat))
      else
        a.(rotatingTime := t, node := blended)
    else if a.state == Walking then
      var remaining := if IsMovingToPoint(a) then a.targetDistance - a.speed * frameTime else a.targetDistance;
      if IsMovingToPoint(a) && remaining < ArrivalEpsilon then
        a.(node := a.node.(position := a.targetPos), targetDistance := 0.0)
      else
        var stepped := Translate(a.node, Scale(a.dirVector, a.speed * frameTime));
        a.(targetDistance := remaining,
           node := stepped.(orientation := g.rotationTo(a.basicLook, a.dirVector)))
    else
      a
  }

  /** Under the invariant the clamp in `update` never fires. */
  lemma ClampIsIdentityWhenReachable(a: AnimationObject)
    requires Inv(a)
    ensures ClampedTimer(a.rotatingTime) == a.rotatingTime
  {
  }

  /** The commands a controller receives, in the order they arrive. */
  datatype Command = MoveBy(impulse: Vec3) | MoveTo(target: Vec3) | Tick(frameTime: real)

  function Apply(g: Engine, a: AnimationObject, c: Command): AnimationObject
    requires Valid(g)
  {
    match c
    case MoveBy(impulse) => Move(g, a, impulse)
    case MoveTo(target) => MoveToPoint(g, a, target)
    case Tick(frameTime) => Update(g, a, frameTime)
  }

  function Run(g: Engine, a: AnimationObject, cmds: seq<Command>): AnimationObject
    requires Valid(g)
    decreases |cmds|
  {
    if cmds == [] then a else Run(g, Apply(g, a, cmds[0]), cmds[1..])
  }

  /** Frame times reported by the engine are never negative. */
  ghost predicate ForwardInTime(cmds: seq<Command>) {
    forall i :: 0 <= i < |cmds| && cmds[i].Tick? ==> cmds[i].frameTime >= 0.0
  }

  /** Any sequence of commands and frames keeps the invariant: the blend timer
      stays in [0, RotationTime) and the distance to the target never goes
      negative. */
  lemma {:induction false} RunKeepsInv(g: Engine, a: AnimationObject, cmds: seq<Command>)
    requires Valid(g) && Inv(a) && ForwardInTime(cmds)
    ensures Inv(Run(g, a, cmds))
    decreases |cmds|
  {
    if cmds != [] {
      assert ForwardInTime(cmds[1..]) by {
        forall i | 0 <= i < |cmds[1..]| && cmds[1..][i].Tick?
          ensures cmds[1..][i].frameTime >= 0.0
        {
          assert cmds[1..][i] == cmds[i + 1];
        }
      }
      RunKeepsInv(g, Apply(g, a, cmds[0]), cmds[1..]);
    }
  }
}

=== FILE: correct_facing.dfy ===
/**
  The "correct facing" waypoint lab: `ProfessorController` walks the
  professor along a fixed five-point route, and `InputController` keeps the
  camera move vector and the flag that ends the render loop. Unlike
  `MainListener`, this controller clears the direction on arrival, and its
  facing step is left empty, so the professor's orientation never changes.
 */
module CorrectFacing {
  import opened Geometry
  import opened Keyboard
  import opened Waypoints
  import WalkingAroundProfessor

  // ---------------------------------------------------------------------------
  // Input controller

  datatype InputController = InputController(cameraMove: Vec3, keepRunning: bool)

  function NewInputController(): (c: InputController)
    ensures c.cameraMove == Zero && c.keepRunning
  {
    InputController(Zero, true)
  }

  /** `keyPressed`: W/A/S/D step the camera move vector; ESC clears the flag. */
  function KeyPressed(c: InputController, k: Key): (r: InputController)
    ensures Sub(r.cameraMove, c.cameraMove) == CameraStep(k)
    ensures r.keepRunning <==> c.keepRunning && k != Escape
  {
    InputController(CameraPressed(c.cameraMove, k), c.keepRunning && k != Escape)
  }

  /** `keyReleased`: takes the camera step back; ESC clears the flag here too. */
  function KeyReleased(c: InputController, k: Key): (r: InputController)
    ensures Sub(c.cameraMove, r.cameraMove) == CameraStep(k)
    ensures r.keepRunning <==> c.keepRunning && k != Escape
  {
    InputController(CameraReleased(c.cameraMove, k), c.keepRunning && k != Escape)
  }

  /** `frameStarted` hands the flag to the engine, whose loop stops on false.
      Moving the camera by the move vector is the engine's business. */
  function InputFrameStarted(c: InputController): (r: bool)
    ensures r <==> c.keepRunning
  {
    c.keepRunning
  }

  function Handle(c: InputController, e: KeyEvent): InputController {
    match e
    case Pressed(k) => KeyPressed(c, k)
    case Released(k) => KeyReleased(c, k)
  }

  function Replay(c: InputController, events: seq<KeyEvent>): InputController
    decreases |events|
  {
    if events == [] then c else Replay(Handle(c, events[0]), events[1..])
  }

  /** The render loop goes on exactly as long as ESC has been neither pressed
      nor released. */
  lemma {:induction false} EscapeEndsTheLoop(c: InputController, events: seq<KeyEvent>)
    ensures InputFrameStarted(Replay(c, events)) <==>
      c.keepRunning && forall i :: 0 <= i < |events| ==> events[i].key != Escape
    decreases |events|
  {
    if events != [] {
      EscapeEndsTheLoop(Handle(c, events[0]), events[1..]);
      assert forall i :: 1 <= i < |events| ==> events[1..][i - 1] == events[i];
    }
  }

  /** Pressing and then releasing the same key restores the camera move vector. */
  lemma PressReleaseRestoresCamera(c: InputController, k: Key)
    ensures KeyReleased(KeyPressed(c, k), k).cameraMove == c.cameraMove
  {
    CameraPressReleaseRestores(c.cameraMove, k);
  }

  // ---------------------------------------------------------------------------
  // Professor controller

  /** The destinations the constructor queues, in order; the last is the origin. */
  const Route: seq<Vec3> := [Vec3(150.0, 0.0, 200.0), Vec3(-150.0, 0.0, 200.0),
                             Vec3(150.0, 0.0, -200.0), Vec3(-150.0, 0.0, -200.0), Zero]

  /** The constructor. The distance and destination are not initialised by
      the source; they are only read after the first `NextLocation` writes
      them, so the model starts them at zero. */
  function NewProfessorController(node: Node): (w: Walker)
    ensures w.walkSpeed == 80.0 && w.direction == Zero && w.node == node
    ensures |w.walkList| == 5 && w.walkList[4] == Zero
    ensures Inv(w)
  {
    Walker(Route, 80.0, Zero, 0.0, Zero, node, NoClip)
  }

  /** `nextLocation`: take the front waypoint; the facing step is empty, so
      the node is not touched. */
  function NextLocation(g: Engine, w: Walker): (r: (Walker, bool))
    requires Valid(g)
    ensures w.walkList == [] ==> r == (w, false)
    ensures w.walkList != [] ==>
      && r.1
      && r.0.walkList == w.walkList[1..]
      && r.0.destination == w.walkList[0]
      && r.0.distance == g.length(Sub(w.walkList[0], w.node.position))
      && r.0.direction == g.normalised(Sub(w.walkList[0], w.node.position))
    ensures r.1 ==> (r.0.direction == Zero <==> r.0.destination == w.node.position)
    ensures r.1 ==> (r.0.direction != Zero <==> r.0.distance > 0.0)
    ensures r.0.node == w.node && r.0.walkSpeed == w.walkSpeed && r.0.clip == w.clip
  {
    TakeNext(g, w)
  }

  /** `frameStarted`. With no direction the controller asks for a waypoint and
      starts the walk clip if it gets one. Otherwise the leg's distance counts
      down by speed times frame time; at or below zero the professor is put
      exactly on the destination, the direction is cleared and the next
      waypoint is taken (the idle clip when there is none); above zero the
      professor steps along the direction. */
  function FrameStarted(g: Engine, w: Walker, frameTime: real): (r: (Walker, bool))
    requires Valid(g)
    ensures r.1
    ensures r.0.walkList == w.walkList || (w.walkList != [] && r.0.walkList == w.walkList[1..])
    ensures w.direction == Zero && w.walkList == [] ==> r.0 == w
    ensures w.direction == Zero && w.walkList != [] ==>
      && r.0.clip == WalkClip && r.0.node == w.node
      && r.0.walkList == w.walkList[1..] && r.0.destination == w.walkList[0]
      && r.0.distance == g.length(Sub(w.walkList[0], w.node.position))
      && r.0.direction == g.normalised(Sub(w.walkList[0], w.node.position))
    ensures w.direction != Zero && w.distance - w.walkSpeed * frameTime > 0.0 ==>
      && r.0.distance == w.distance - w.walkSpeed * frameTime
      && r.0.node == Translate(w.node, Scale(w.direction, w.walkSpeed * frameTime))
      && r.0 == w.(distance := r.0.distance, node := r.0.node)
    ensures w.direction != Zero && w.distance - w.walkSpeed * frameTime <= 0.0 ==>
      && r.0.node.position == w.destination
      && (w.walkList != [] ==>
            && r.0.walkList == w.walkList[1..] && r.0.destination == w.walkList[0]
            && r.0.distance == g.length(Sub(w.walkList[0], w.destination))
            && r.0.direction == g.normalised(Sub(w.walkList[0], w.destination))
            && r.0.clip == w.clip)
      && (w.walkList == [] ==>
            && r.0.direction == Zero && r.0.destination == w.destination && r.0.clip == IdleClip
            && r.0.distance == w.distance - w.walkSpeed * frameTime)
    ensures r.0.node.orientation == w.node.orientation
    ensures r.0.walkSpeed == w.walkSpeed
  {
    if w.direction == Zero then
      var next := NextLocation(g, w);
      (if next.1 then next.0.(clip := WalkClip) else next.0, true)
    else
      var move := w.walkSpeed * frameTime;
      var counted := w.(distance := w.distance - move);
      if counted.distance <= 0.0 then
        var arrived := counted.(node := counted.node.(position := counted.destination), direction := Zero);
        var next := NextLocation(g, arrived);
        (if next.1 then next.0 else next.0.(clip := IdleClip), true)
      else
        (counted.(node := Translate(counted.node, Scale(w.direction, move))), true)
  }

  /** What holds of the controller on every frame: the queue is what is left
      of the route after taking waypoints from its front; the destination is
      the last waypoint taken; a controller with no direction stands on it;
      and a direction always comes with distance left to walk. */
  ghost predicate Inv(w: Walker) {
    && w.walkSpeed >= 0.0
    && SuffixOf(w.walkList, Route)
    && (|w.walkList| == |Route| ==> w.direction == Zero)
    && (|w.walkList| < |Route| ==> w.destination == Route[|Route| - |w.walkList| - 1])
    && (|w.walkList| < |Route| && w.direction == Zero ==> w.node.position == w.destination)
    && (w.direction != Zero ==> w.distance > 0.0)
  }

  /** The invariant does not look at the animation clip. */
  lemma InvIgnoresClip(w: Walker, clip: string)
    requires Inv(w)
    ensures Inv(w.(clip := clip))
  {
  }

  /** Taking a waypoint from a queue that is still a tail of the route
      re-establishes the invariant, whatever the leg taken. */
  lemma TakingKeepsInv(g: Engine, u: Walker)
    requires Valid(g) && u.walkSpeed >= 0.0 && SuffixOf(u.walkList, Route) && u.walkList != []
    ensures Inv(NextLocation(g, u).0)
  {
    SuffixOfTail(u.walkList, Route);
  }

  /** A frame with no direction either does nothing or takes a waypoint. */
  lemma FrameIdleInv(g: Engine, w: Walker, frameTime: real)
    requires Valid(g) && Inv(w) && w.direction == Zero
    ensures Inv(FrameStarted(g, w, frameTime).0)
  {
    if w.walkList != [] {
      TakingKeepsInv(g, w);
      InvIgnoresClip(NextLocation(g, w).0, WalkClip);
    }
  }

  /** A frame that ends the leg lands on the destination and takes the next
      waypoint, if any. */
  lemma FrameArriveInv(g: Engine, w: Walker, frameTime: real)
    requires Valid(g) && Inv(w) && w.direction != Zero && w.distance - w.walkSpeed * frameTime <= 0.0
    ensures Inv(FrameStarted(g, w, frameTime).0)
  {
    var left := w.distance - w.walkSpeed * frameTime;
    var arrived := w.(distance := left, node := w.node.(position := w.destination), direction := Zero);
    if w.walkList != [] {
      TakingKeepsInv(g, arrived);
    } else {
      assert w.destination == Route[|Route| - 1];
    }
  }

  /** A frame inside the leg only steps along it, with distance still left. */
  lemma FrameStepInv(g: Engine, w: Walker, frameTime: real)
    requires Valid(g) && Inv(w) && w.direction != Zero && w.distance - w.walkSpeed * frameTime > 0.0
    ensures Inv(FrameStarted(g, w, frameTime).0)
  {
  }

  lemma FramePreservesInv(g: Engine, w: Walker, frameTime: real)
    requires Valid(g) && Inv(w)
    ensures Inv(FrameStarted(g, w, frameTime).0)
  {
    if w.direction == Zero {
      FrameIdleInv(g, w, frameTime);
    } else if w.distance - w.walkSpeed * frameTime <= 0.0 {
      FrameArriveInv(g, w, frameTime);
    } else {
      FrameStepInv(g, w, frameTime);
    }
  }

  function Run(g: Engine, w: Walker, frames: seq<real>): Walker
    requires Valid(g)
    decreases |frames|
  {
    if frames == [] then w else Run(g, FrameStarted(g, w, frames[0]).0, frames[1..])
  }

  /** Every run of frames keeps `Inv` and the professor's orientation:
      waypoints are taken in route order, each exactly once, and the empty
      facing step never turns the professor. */
  lemma {:induction false} RunKeepsInv(g: Engine, w: Walker, frames: seq<real>)
    requires Valid(g) && Inv(w)
    ensures Inv(Run(g, w, frames))
    ensures Run(g, w, frames).node.orientation == w.node.orientation
    decreases |frames|
  {
    if frames != [] {
      FramePreservesInv(g, w, frames[0]);
      RunKeepsInv(g, FrameStarted(g, w, frames[0]).0, frames[1..]);
    }
  }

  /** The route is used up and the last leg is over. */
  ghost predicate Finished(w: Walker) {
    w.walkList == [] && w.direction == Zero
  }

  /** Once the route is used up the professor stands on the last waypoint and
      no later frame changes anything. */
  lemma RestsAtLastWaypoint(g: Engine, w: Walker, frameTime: real)
    requires Valid(g) && Inv(w) && Finished(w)
    ensures w.node.position == Route[|Route| - 1]
    ensures FrameStarted(g, w, frameTime) == (w, true)
  {
  }

  /** Where the two waypoint listeners part ways: arriving with an empty
      queue, both put the professor on the destination and select the idle
      clip, but `MainListener` keeps its direction and clears the destination
      while this controller clears the direction and keeps the destination. */
  lemma ArrivalOnEmptyQueue(g: Engine, w: Walker, frameTime: real)
    requires Valid(g)
    requires w.walkList == [] && w.direction != Zero
    requires w.distance - w.walkSpeed * frameTime <= 0.0
    ensures var main := WalkingAroundProfessor.FrameStarted(g, w, frameTime).0;
      var facing := FrameStarted(g, w, frameTime).0;
      && main.node.position == facing.node.position == w.destination
      && main.clip == facing.clip == IdleClip
      && main.direction == w.direction && main.destination == Zero
      && facing.direction == Zero && facing.destination == w.destination
  {
  }
}

=== FILE: geometry.dfy ===
/**
  The slice of the 3D engine the locomotion code touches: three-component
  vectors over the reals, quaternions carried around as opaque values, a
  scene node (position and orientation), and the engine's geometric
  primitives, passed in as an `Engine` record whose only known properties are
  the ones stated by `Valid`.
 */
module Geometry {

  /** A position or direction in world space; the engine's single-precision
      components are modelled as reals. */
  datatype Vec3 = Vec3(x: real, y: real, z: real)

  const Zero: Vec3 := Vec3(0.0, 0.0, 0.0)
  const UnitX: Vec3 := Vec3(1.0, 0.0, 0.0)
  const UnitZ: Vec3 := Vec3(0.0, 0.0, 1.0)
  /** `-Vector3::UNIT_X` and `-Vector3::UNIT_Z`. */
  const MinusUnitX: Vec3 := Vec3(-1.0, 0.0, 0.0)
  const MinusUnitZ: Vec3 := Vec3(0.0, 0.0, -1.0)

  function Add(a: Vec3, b: Vec3): Vec3 {
    Vec3(a.x + b.x, a.y + b.y, a.z + b.z)
  }

  function Sub(a: Vec3, b: Vec3): (r: Vec3)
    ensures Add(b, r) == a
    ensures r == Zero <==> a == b
  {
    Vec3(a.x - b.x, a.y - b.y, a.z - b.z)
  }

  function Scale(a: Vec3, k: real): Vec3 {
    Vec3(a.x * k, a.y * k, a.z * k)
  }

  /** A rotation. The model never looks inside one: every quaternion is
      produced by an `Engine` operation and only stored or compared. */
  datatype Quat = Quat(w: real, x: real, y: real, z: real)

  const QuatZero: Quat := Quat(0.0, 0.0, 0.0, 0.0)

  /** The engine's geometry, left uninterpreted:
      - `length(v)`: the value `v.normalise()` returns (the length before scaling);
      - `normalised(v)`: the vector `v.normalise()` leaves behind;
      - `rotationTo(from, to)`: the shortest-arc rotation `from.getRotationTo(to)`;
      - `slerp(t, p, q)`: spherical interpolation `Quaternion::Slerp(t, p, q, true)`;
      - `multiply(p, q)`: quaternion product, used by `SceneNode::rotate`;
      - `zAxis(q)`: the local z axis of a rotation. */
  datatype Engine = Engine(
    length: Vec3 -> real,
    normalised: Vec3 -> Vec3,
    rotationTo: (Vec3, Vec3) -> Quat,
    slerp: (real, Quat, Quat) -> Quat,
    multiply: (Quat, Quat) -> Quat,
    zAxis: Quat -> Vec3)

  /** The only facts about the engine's geometry the model relies on: a length
      is never negative, it is zero exactly for the zero vector, and
      normalising keeps a vector zero exactly when it was zero (a non-zero
      vector becomes a unit vector or, when tiny, is left as it is). */
  ghost predicate Valid(g: Engine) {
    && (forall v :: g.length(v) >= 0.0)
    && (forall v :: g.length(v) == 0.0 <==> v == Zero)
    && (forall v :: g.normalised(v) == Zero <==> v == Zero)
  }

  /** A scene node as far as the controllers see it. */
  datatype Node = Node(position: Vec3, orientation: Quat)

  /** `SceneNode::translate` in parent space: the offset is added to the position. */
  function Translate(n: Node, offset: Vec3): (r: Node)
    ensures Sub(r.position, n.position) == offset
    ensures r.orientation == n.orientation
  {
    n.(position := Add(n.position, offset))
  }
}

=== FILE: keyboard.dfy ===
/**
  Key events as the input controllers see them, and the camera-move
  bookkeeping that the W/A/S/D keys drive in every lab: a press adds a unit
  step on one axis of the camera move vector and the matching release takes it
  back.
 */
module Keyboard {
  import opened Geometry

  datatype Key = W | S | A | D | Left | Right | Up | Down | Escape | Other

  datatype KeyEvent = Pressed(key: Key) | Released(key: Key)

  /** The change a press of `k` makes to the camera move vector (zero for keys
      that do not steer the camera). */
  function CameraStep(k: Key): (r: Vec3)
    ensures r.z == 0.0
    ensures r != Zero <==> k in {W, S, A, D}
  {
    match k
    case W => Vec3(0.0, 1.0, 0.0)
    case S => Vec3(0.0, -1.0, 0.0)
    case A => Vec3(-1.0, 0.0, 0.0)
    case D => Vec3(1.0, 0.0, 0.0)
    case _ => Zero
  }

  /** Camera move vector after `keyPressed(k)`. */
  function CameraPressed(v: Vec3, k: Key): (r: Vec3)
    ensures Sub(r, v) == CameraStep(k)
  {
    match k
    case W => v.(y := v.y + 1.0)
    case S => v.(y := v.y - 1.0)
    case A => v.(x := v.x - 1.0)
    case D => v.(x := v.x + 1.0)
    case _ => v
  }

  /** Camera move vector after `keyReleased(k)`. */
  function CameraReleased(v: Vec3, k: Key): (r: Vec3)
    ensures Sub(v, r) == CameraStep(k)
  {
    match k
    case W => v.(y := v.y - 1.0)
    case S => v.(y := v.y + 1.0)
    case A => v.(x := v.x + 1.0)
    case D => v.(x := v.x - 1.0)
    case _ => v
  }

  /** Pressing and then releasing the same key leaves the camera move vector
      where it was, and so does releasing then pressing. */
  lemma CameraPressReleaseRestores(v: Vec3, k: Key)
    ensures CameraReleased(CameraPressed(v, k), k) == v
    ensures CameraPressed(CameraReleased(v, k), k) == v
  {
  }
}

=== FILE: practice08.dfy ===
/**
  The two frame listeners of the smooth-rotation lab: an input controller
  that steers the professor with the arrow keys and the camera with W/A/S/D,
  and a ninja controller that patrols random points through a one-element
  waypoint queue and chases the professor when close.
 */
module Practice08 {
  import opened Geometry
  import opened Animation
  import opened Keyboard

  // ---------------------------------------------------------------------------
  // Input controller

  datatype InputController = InputController(cameraMove: Vec3, professor: AnimationObject)

  /** The professor's controller plays "Idle" and "Walk" and walks at 100. */
  function NewInputController(professorNode: Node): (c: InputController)
    ensures c.cameraMove == Zero
    ensures c.professor.node == professorNode && c.professor.speed == 100.0
    ensures c.professor.idleClip == "Idle" && c.professor.walkClip == "Walk"
    // at rest until the first key: no state, no velocity or heading, idling
    ensures c.professor.state == NoState && c.professor.velocity == Zero
    ensures c.professor.dirVector == Zero && !IsMovingToPoint(c.professor)
    ensures c.professor.clip == "Idle"
    ensures Inv(c.professor)
  {
    InputController(Zero, SetSpeed(SetUp(professorNode, "Idle", "Walk"), 100.0))
  }

  predicate IsArrow(k: Key) {
    k in {Left, Right, Up, Down}
  }

  /** The impulse an arrow press gives the professor. */
  function ArrowImpulse(k: Key): (r: Vec3)
    ensures r.y == 0.0
    ensures r != Zero <==> IsArrow(k)
  {
    match k
    case Left => MinusUnitX
    case Right => UnitX
    case Up => MinusUnitZ
    case Down => UnitZ
    case _ => Zero
  }

  /** The impulse an arrow release gives the professor: the opposite of the
      press's. */
  function ReleaseImpulse(k: Key): (r: Vec3)
    ensures r != Zero <==> IsArrow(k)
  {
    match k
    case Left => UnitX
    case Right => MinusUnitX
    case Up => UnitZ
    case Down => MinusUnitZ
    case _ => Zero
  }

  /** `keyPressed`: W/A/S/D step the camera move vector, an arrow key gives the
      professor an impulse, every other key changes nothing the model keeps. */
  function KeyPressed(g: Engine, c: InputController, k: Key): (r: InputController)
    requires Valid(g)
    ensures Sub(r.cameraMove, c.cameraMove) == CameraStep(k)
    ensures r.professor.velocity == Add(c.professor.velocity, ArrowImpulse(k))
    ensures IsArrow(k) ==> r.professor == Move(g, c.professor, ArrowImpulse(k))
    ensures !IsArrow(k) ==> r.professor == c.professor
    ensures r.professor.node == c.professor.node
    ensures Inv(c.professor) ==> Inv(r.professor)
  {
    var professor := if IsArrow(k) then Move(g, c.professor, ArrowImpulse(k)) else c.professor;
    InputController(CameraPressed(c.cameraMove, k), professor)
  }

  /** `keyReleased`: the mirror image of `KeyPressed`. */
  function KeyReleased(g: Engine, c: InputController, k: Key): (r: InputController)
    requires Valid(g)
    ensures Sub(c.cameraMove, r.cameraMove) == CameraStep(k)
    ensures r.professor.velocity == Add(c.professor.velocity, ReleaseImpulse(k))
    ensures IsArrow(k) ==> r.professor == Move(g, c.professor, ReleaseImpulse(k))
    ensures !IsArrow(k) ==> r.professor == c.professor
    ensures r.professor.node == c.professor.node
    ensures Inv(c.professor) ==> Inv(r.professor)
  {
    var professor := if IsArrow(k) then Move(g, c.professor, ReleaseImpulse(k)) else c.professor;
    InputController(CameraReleased(c.cameraMove, k), professor)
  }

  /** A release's impulse cancels the press's, component by component. */
  lemma ImpulsesCancel(k: Key)
    ensures ArrowImpulse(k).x + ReleaseImpulse(k).x == 0.0
    ensures ArrowImpulse(k).y + ReleaseImpulse(k).y == 0.0
    ensures ArrowImpulse(k).z + ReleaseImpulse(k).z == 0.0
  {
    match k
    case Left =>
    case Right =>
    case Up =>
    case Down =>
    case _ =>
  }

  lemma AddCancels(v: Vec3, i: Vec3, j: Vec3)
    requires i.x + j.x == 0.0 && i.y + j.y == 0.0 && i.z + j.z == 0.0
    ensures Add(Add(v, i), j) == v
  {
  }

  /** Holding a key down and letting it go restores the professor's velocity
      and the camera move vector, and leaves the professor where it stood. */
  lemma PressReleaseRestoresVelocity(g: Engine, c: InputController, k: Key)
    requires Valid(g)
    ensures var r := KeyReleased(g, KeyPressed(g, c, k), k);
      && r.professor.velocity == c.professor.velocity
      && r.cameraMove == c.cameraMove
      && r.professor.node == c.professor.node
      && (!IsArrow(k) ==> r == c)
  {
    var p := KeyPressed(g, c, k);
    var r := KeyReleased(g, p, k);
    CameraPressReleaseRestores(c.cameraMove, k);
    ImpulsesCancel(k);
    AddCancels(c.professor.velocity, ArrowImpulse(k), ReleaseImpulse(k));
  }

  /** `frameStarted`: the professor's controller advances by one frame. The
      camera's own motion belongs to the engine. */
  function InputFrameStarted(g: Engine, c: InputController, frameTime: real): (r: InputController)
    ensures r.cameraMove == c.cameraMove
    ensures r.professor == Update(g, c.professor, frameTime)
    ensures r.professor.velocity == c.professor.velocity
    ensures Inv(c.professor) && frameTime >= 0.0 ==> Inv(r.professor)
  {
    c.(professor := Update(g, c.professor, frameTime))
  }

  // ---------------------------------------------------------------------------
  // Ninja controller

  /** Two successive results of the C library's `rand()`, which are never negative. */
  datatype Roll = Roll(first: nat, second: nat)

  /** `randomVector`: a point on the ground with integer coordinates in [-250, 249]. */
  function RandomVector(roll: Roll): (v: Vec3)
    ensures OnPatrolGround(v)
  {
    Vec3(((roll.first % 500) - 250) as real, 0.0, ((roll.second % 500) - 250) as real)
  }

  ghost predicate OnPatrolGround(v: Vec3) {
    && v.y == 0.0
    && -250.0 <= v.x <= 249.0
    && -250.0 <= v.z <= 249.0
  }

  datatype NinjaController = NinjaController(walkList: seq<Vec3>, ninja: AnimationObject)

  /** Every queued waypoint was drawn by `RandomVector`. */
  ghost predicate QueueOnGround(n: NinjaController) {
    forall i :: 0 <= i < |n.walkList| ==> OnPatrolGround(n.walkList[i])
  }

  /** `nextLocation`: sends the ninja to the front waypoint and queues a fresh
      random one in its place. */
  function NextLocation(g: Engine, n: NinjaController, roll: Roll): (r: (NinjaController, bool))
    requires Valid(g)
    ensures n.walkList == [] ==> r == (n, false)
    ensures n.walkList != [] ==>
      && r.1
      && r.0.walkList == n.walkList[1..] + [RandomVector(roll)]
      && r.0.ninja == MoveToPoint(g, n.ninja, n.walkList[0])
    ensures |r.0.walkList| == |n.walkList|
    ensures QueueOnGround(n) ==> QueueOnGround(r.0)
  {
    if n.walkList == [] then
      (n, false)
    else
      var dest := n.walkList[0];
      var rest := n.walkList[1..];
      (NinjaController(rest + [RandomVector(roll)], MoveToPoint(g, n.ninja, dest)), true)
  }

  /** Beyond this distance from the professor the ninja keeps patrolling. */
  const ChaseRange: real := 100.0

  /** The constructor: the ninja plays "Walk" in both roles, is turned to face
      -Z, walks at 80, queues one random point and at once heads for it,
      queuing the next. */
  function NewNinjaController(g: Engine, node: Node, first: Roll, second: Roll): (n: NinjaController)
    requires Valid(g)
    ensures n.walkList == [RandomVector(second)]
    ensures n.ninja.targetPos == RandomVector(first)
    ensures n.ninja.speed == 80.0
    ensures n.ninja.node.position == node.position
    // turned to face -Z, then set off at once towards the first point
    ensures n.ninja.node.orientation == g.multiply(node.orientation, g.rotationTo(UnitZ, MinusUnitZ))
    ensures n.ninja.basicLook == g.zAxis(g.rotationTo(UnitZ, MinusUnitZ))
    ensures n.ninja.idleClip == "Walk" && n.ninja.walkClip == "Walk" && n.ninja.clip == "Walk"
    ensures n.ninja.velocity == Zero
    ensures n.ninja.targetDistance == g.length(Sub(RandomVector(first), node.position))
    ensures IsMovingToPoint(n.ninja) <==> RandomVector(first) != node.position
    ensures n.ninja.dirVector == g.normalised(Sub(RandomVector(first), node.position))
    // coming from no heading at all, any real heading starts a rotation blend
    ensures n.ninja.state == (if RandomVector(first) == node.position then Idle else Rotating)
    ensures n.ninja.state == Rotating ==>
      && n.ninja.rotatingTime == 0.0 && n.ninja.srcQuat == n.ninja.node.orientation
      && n.ninja.destQuat == g.rotationTo(n.ninja.basicLook, g.normalised(n.ninja.dirVector))
    ensures QueueOnGround(n) && Inv(n.ninja)
  {
    var ninja := SetSpeed(BasicRotate(g, SetUp(node, "Walk", "Walk"), MinusUnitZ), 80.0);
    NextLocation(g, NinjaController([RandomVector(first)], ninja), second).0
  }

  /** `frameStarted`: advance the ninja; chase the professor when within
      `ChaseRange`, otherwise take the next patrol point once the last one is
      reached. The listener never asks the engine to stop. */
  function NinjaFrameStarted(g: Engine, n: NinjaController, frameTime: real, professorPos: Vec3, roll: Roll)
    : (r: (NinjaController, bool))
    requires Valid(g)
    ensures r.1
    ensures |r.0.walkList| == |n.walkList|
    ensures var moved := Update(g, n.ninja, frameTime);
      g.length(Sub(moved.node.position, professorPos)) < ChaseRange ==>
        r.0 == NinjaController(n.walkList, MoveToPoint(g, moved, professorPos))
    // out of range: a ninja that reached its patrol point takes the next one
    ensures var moved := Update(g, n.ninja, frameTime);
      g.length(Sub(moved.node.position, professorPos)) >= ChaseRange && !IsMovingToPoint(moved) ==>
        r.0 == NextLocation(g, NinjaController(n.walkList, moved), roll).0
    // out of range and still on the way: only the frame's update
    ensures var moved := Update(g, n.ninja, frameTime);
      g.length(Sub(moved.node.position, professorPos)) >= ChaseRange && IsMovingToPoint(moved) ==>
        r.0 == NinjaController(n.walkList, moved)
    ensures QueueOnGround(n) ==> QueueOnGround(r.0)
    ensures Inv(n.ninja) && frameTime >= 0.0 ==> Inv(r.0.ninja)
  {
    var moved := n.(ninja := Update(g, n.ninja, frameTime));
    if g.length(Sub(moved.ninja.node.position, professorPos)) < ChaseRange then
      (moved.(ninja := MoveToPoint(g, moved.ninja, professorPos)), true)
    else if !IsMovingToPoint(moved.ninja) then
      (NextLocation(g, moved, roll).0, true)
    else
      (moved, true)
  }

  /** What the engine hands the ninja's listener each frame. */
  datatype NinjaFrame = NinjaFrame(frameTime: real, professorPos: Vec3, roll: Roll)

  function RunNinja(g: Engine, n: NinjaController, frames: seq<NinjaFrame>): NinjaController
    requires Valid(g)
    decreases |frames|
  {
    if frames == [] then n
    else
      var f := frames[0];
      RunNinja(g, NinjaFrameStarted(g, n, f.frameTime, f.professorPos, f.roll).0, frames[1..])
  }

  /** Frames never change the length of the patrol queue, and keep every
      queued point on the patrol ground. */
  lemma {:induction false} RunNinjaKeepsQueue(g: Engine, n: NinjaController, frames: seq<NinjaFrame>)
    requires Valid(g)
    ensures |RunNinja(g, n, frames).walkList| == |n.walkList|
    ensures QueueOnGround(n) ==> QueueOnGround(RunNinja(g, n, frames))
    decreases |frames|
  {
    if frames != [] {
      var f := frames[0];
      RunNinjaKeepsQueue(g, NinjaFrameStarted(g, n, f.frameTime, f.professorPos, f.roll).0, frames[1..]);
    }
  }

  /** From construction on the patrol queue holds exactly one point, so
      `nextLocation` always finds a waypoint and never returns false. */
  lemma PatrolNeverRunsDry(g: Engine, node: Node, first: Roll, second: Roll,
                           frames: seq<NinjaFrame>, roll: Roll)
    requires Valid(g)
    ensures var n := RunNinja(g, NewNinjaController(g, node, first, second), frames);
      && |n.walkList| == 1
      && OnPatrolGround(n.walkList[0])
      && NextLocation(g, n, roll).1
  {
    var n0 := NewNinjaController(g, node, first, second);
    RunNinjaKeepsQueue(g, n0, frames);
  }
}

=== FILE: walking_around_professor.dfy ===
/**
  `MainListener` of the first waypoint lab: the professor walks a fixed
  four-point route, turning to face each leg as it is taken. On arrival this
  listener clears the destination (not the direction) before asking for the
  next waypoint.
 */
module WalkingAroundProfessor {
  import opened Geometry
  import opened Waypoints

  /** The destinations the constructor queues, in order; the last is the origin. */
  const Route: seq<Vec3> := [Vec3(150.0, 30.0, 200.0), Vec3(-150.0, -30.0, 200.0),
                             Vec3(0.0, 50.0, -200.0), Zero]

  /** The constructor. The distance and destination are not initialised by
      the source; they are only read after the first `NextLocation` writes
      them, so the model starts them at zero. */
  function NewMainListener(node: Node): (w: Walker)
    ensures w.walkSpeed == 80.0 && w.direction == Zero && w.node == node
    ensures |w.walkList| == 4 && w.walkList[3] == Zero
    ensures Inv(w)
  {
    Walker(Route, 80.0, Zero, 0.0, Zero, node, NoClip)
  }

  /** `nextLocation`: take the front waypoint and face along the new leg
      (the rotation from +Z to the leg's direction). */
  function NextLocation(g: Engine, w: Walker): (r: (Walker, bool))
    requires Valid(g)
    ensures w.walkList == [] ==> r == (w, false)
    ensures w.walkList != [] ==>
      && r.1
      && r.0.walkList == w.walkList[1..]
      && r.0.destination == w.walkList[0]
      && r.0.distance == g.length(Sub(w.walkList[0], w.node.position))
      && r.0.direction == g.normalised(Sub(w.walkList[0], w.node.position))
      && r.0.node == w.node.(orientation := g.rotationTo(UnitZ, r.0.direction))
    ensures r.1 ==> (r.0.direction == Zero <==> r.0.destination == w.node.position)
    ensures r.1 ==> (r.0.direction != Zero <==> r.0.distance > 0.0)
    ensures r.0.walkSpeed == w.walkSpeed && r.0.clip == w.clip
  {
    var taken := TakeNext(g, w);
    if taken.1 then
      (taken.0.(node := w.node.(orientation := g.rotationTo(UnitZ, taken.0.direction))), true)
    else
      taken
  }

  /** `frameStarted`. With no direction the listener asks for a waypoint and
      starts the walk clip if it gets one. Otherwise the leg's distance counts
      down by speed times frame time; at or below zero the professor is put
      exactly on the destination, the destination is cleared and the next
      waypoint is taken at once (the idle clip when there is none); above zero
      the professor steps along the direction. The listener never stops the
      engine. */
  function FrameStarted(g: Engine, w: Walker, frameTime: real): (r: (Walker, bool))
    requires Valid(g)
    ensures r.1
    ensures r.0.walkList == w.walkList || (w.walkList != [] && r.0.walkList == w.walkList[1..])
    ensures w.direction == Zero && w.walkList == [] ==> r.0 == w
    ensures w.direction == Zero && w.walkList != [] ==>
      && r.0.clip == WalkClip && r.0.node.position == w.node.position
      && r.0.walkList == w.walkList[1..] && r.0.destination == w.walkList[0]
      && r.0.distance == g.length(Sub(w.walkList[0], w.node.position))
      && r.0.direction == g.normalised(Sub(w.walkList[0], w.node.position))
      && r.0.node.orientation == g.rotationTo(UnitZ, r.0.direction)
    ensures w.direction != Zero && w.distance - w.walkSpeed * frameTime > 0.0 ==>
      && r.0.distance == w.distance - w.walkSpeed * frameTime
      && r.0.node == Translate(w.node, Scale(w.direction, w.walkSpeed * frameTime))
      && r.0 == w.(distance := r.0.distance, node := r.0.node)
    ensures w.direction != Zero && w.distance - w.walkSpeed * frameTime <= 0.0 ==>
      && r.0.node.position == w.destination
      && (w.walkList != [] ==>
            && r.0.walkList == w.walkList[1..] && r.0.destination == w.walkList[0]
            && r.0.distance == g.length(Sub(w.walkList[0], w.destination))
            && r.0.direction == g.normalised(Sub(w.walkList[0], w.destination))
            && r.0.node.orientation == g.rotationTo(UnitZ, r.0.direction)
            && r.0.clip == w.clip)
      && (w.walkList == [] ==>
            && r.0.destination == Zero && r.0.direction == w.direction && r.0.clip == IdleClip
            && r.0.node.orientation == w.node.orientation
            && r.0.distance == w.distance - w.walkSpeed * frameTime)
    ensures r.0.walkSpeed == w.walkSpeed
  {
    if w.direction == Zero then
      var next := NextLocation(g, w);
      (if next.1 then next.0.(clip := WalkClip) else next.0, true)
    else
      var move := w.walkSpeed * frameTime;
      var counted := w.(distance := w.distance - move);
      if counted.distance <= 0.0 then
        var arrived := counted.(node := counted.node.(position := counted.destination), destination := Zero);
        var next := NextLocation(g, arrived);
        (if next.1 then next.0 else next.0.(clip := IdleClip), true)
      else
        (counted.(node := Translate(counted.node, Scale(w.direction, move))), true)
  }

  /** What holds of the listener on every frame: the queue is what is left of
      the route after taking waypoints from its front; the destination is the
      last waypoint taken; a listener with no direction stands on it; and a
      direction without distance left only survives once the queue is empty
      and the professor stands on the destination. */
  ghost predicate Inv(w: Walker) {
    && w.walkSpeed >= 0.0
    && SuffixOf(w.walkList, Route)
    && (|w.walkList| == |Route| ==> w.direction == Zero)
    && (|w.walkList| < |Route| ==> w.destination == Route[|Route| - |w.walkList| - 1])
    && (|w.walkList| < |Route| && w.direction == Zero ==> w.node.position == w.destination)
    && (w.direction != Zero ==>
          w.distance > 0.0 || (w.walkList == [] && w.node.position == w.destination))
  }

  /** The invariant does not look at the animation clip. */
  lemma InvIgnoresClip(w: Walker, clip: string)
    requires Inv(w)
    ensures Inv(w.(clip := clip))
  {
  }

  /** Taking a waypoint from a queue that is still a tail of the route
      re-establishes the invariant, whatever the leg taken. */
  lemma TakingKeepsInv(g: Engine, u: Walker)
    requires Valid(g) && u.walkSpeed >= 0.0 && SuffixOf(u.walkList, Route) && u.walkList != []
    ensures Inv(NextLocation(g, u).0)
  {
    SuffixOfTail(u.walkList, Route);
  }

  /** A frame with no direction either does nothing or takes a waypoint. */
  lemma FrameIdleInv(g: Engine, w: Walker, frameTime: real)
    requires Valid(g) && Inv(w) && w.direction == Zero
    ensures Inv(FrameStarted(g, w, frameTime).0)
  {
    if w.walkList != [] {
      TakingKeepsInv(g, w);
      InvIgnoresClip(NextLocation(g, w).0, WalkClip);
    }
  }

  /** A frame that ends the leg lands on the destination, clears it and
      takes the next waypoint, if any. */
  lemma FrameArriveInv(g: Engine, w: Walker, frameTime: real)
    requires Valid(g) && Inv(w) && w.direction != Zero && w.distance - w.walkSpeed * frameTime <= 0.0
    ensures Inv(FrameStarted(g, w, frameTime).0)
  {
    var left := w.distance - w.walkSpeed * frameTime;
    var arrived := w.(distance := left, node := w.node.(position := w.destination), destination := Zero);
    if w.walkList != [] {
      TakingKeepsInv(g, arrived);
    } else {
      assert w.destination == Route[|Route| - 1];
    }
  }

  /** A frame inside the leg only steps along it, with distance still left. */
  lemma FrameStepInv(g: Engine, w: Walker, frameTime: real)
    requires Valid(g) && Inv(w) && w.direction != Zero && w.distance - w.walkSpeed * frameTime > 0.0
    ensures Inv(FrameStarted(g, w, frameTime).0)
  {
  }

  lemma FramePreservesInv(g: Engine, w: Walker, frameTime: real)
    requires Valid(g) && Inv(w)
    ensures Inv(FrameStarted(g, w, frameTime).0)
  {
    if w.direction == Zero {
      FrameIdleInv(g, w, frameTime);
    } else if w.distance - w.walkSpeed * frameTime <= 0.0 {
      FrameArriveInv(g, w, frameTime);
    } else {
      FrameStepInv(g, w, frameTime);
    }
  }

  function Run(g: Engine, w: Walker, frames: seq<real>): Walker
    requires Valid(g)
    decreases |frames|
  {
    if frames == [] then w else Run(g, FrameStarted(g, w, frames[0]).0, frames[1..])
  }

  /** Every run of frames from construction keeps `Inv`: waypoints are taken
      in route order, each exactly once. */
  lemma {:induction false} RunKeepsInv(g: Engine, w: Walker, frames: seq<real>)
    requires Valid(g) && Inv(w)
    ensures Inv(Run(g, w, frames))
    decreases |frames|
  {
    if frames != [] {
      FramePreservesInv(g, w, frames[0]);
      RunKeepsInv(g, FrameStarted(g, w, frames[0]).0, frames[1..]);
    }
  }

  /** The route is used up and the last leg is over. */
  ghost predicate Finished(w: Walker) {
    w.walkList == [] && (w.direction == Zero || w.distance <= 0.0)
  }

  /** With the queue empty and no distance left, a frame of non-negative
      length lands the professor on the destination again and selects the
      idle clip again, still with no distance left. */
  lemma ArrivesAgain(g: Engine, w: Walker, frameTime: real)
    requires Valid(g)
    requires w.walkList == [] && w.direction != Zero && w.distance <= 0.0
    requires w.walkSpeed >= 0.0 && frameTime >= 0.0
    ensures var r := FrameStarted(g, w, frameTime).0;
      && r.node.position == w.destination
      && r.destination == Zero && r.clip == IdleClip
      && r.walkList == [] && r.direction == w.direction && r.distance <= 0.0
  {
  }

  /** Once the route is used up the professor stands on the origin, and every
      later frame puts it back there; while the old direction is kept, each
      such frame selects the idle clip again. */
  lemma RestsAtOrigin(g: Engine, w: Walker, frameTime: real)
    requires Valid(g) && Inv(w) && Finished(w) && frameTime >= 0.0
    ensures w.node.position == Zero
    ensures var r := FrameStarted(g, w, frameTime).0;
      && Inv(r) && Finished(r)
      && r.node.position == Zero
      && (w.direction != Zero ==> r.clip == IdleClip)
  {
    assert w.destination == Route[3];
    FramePreservesInv(g, w, frameTime);
    if w.direction != Zero {
      ArrivesAgain(g, w, frameTime);
    }
  }

  /** The cleared destination matters once the queue is empty: a listener
      that arrives at a last waypoint away from the origin is moved to the
      origin on the following frame. The route the constructor queues ends at
      the origin, which is why the professor is seen to stay put. */
  lemma ExhaustedQueueSnapsToOrigin(g: Engine, w: Walker, first: real, second: real)
    requires Valid(g)
    requires w.walkList == [] && w.direction != Zero && w.walkSpeed >= 0.0
    requires first >= 0.0 && second >= 0.0
    requires w.distance - w.walkSpeed * first <= 0.0
    ensures var arrived := FrameStarted(g, w, first).0;
      && arrived.node.position == w.destination
      && FrameStarted(g, arrived, second).0.node.position == Zero
  {
    var arrived := FrameStarted(g, w, first).0;
    ArrivesAgain(g, arrived, second);
  }
}

=== FILE: waypoints.dfy ===
/**
  The state both waypoint-walking frame listeners of Lab 08 keep for the
  professor: a FIFO queue of destinations, a walk speed, the unit direction
  and distance of the current leg, the destination itself, the professor's
  scene node and the animation clip it plays.
 */
module Waypoints {
  import opened Geometry

  const WalkClip: string := "Walk"
  const IdleClip: string := "Idle"
  /** Until the first waypoint is taken no clip has been selected. */
  const NoClip: string := ""

  datatype Walker = Walker(
    walkList: seq<Vec3>,
    walkSpeed: real,
    direction: Vec3,
    distance: real,
    destination: Vec3,
    node: Node,
    clip: string)

  /** The part of `nextLocation` the two listeners share: pop the front
      waypoint, make it the destination, and aim at it from the current
      position. An empty queue leaves everything as it was. */
  function TakeNext(g: Engine, w: Walker): (r: (Walker, bool))
    requires Valid(g)
    ensures w.walkList == [] ==> r == (w, false)
    ensures w.walkList != [] ==>
      && r.1
      && r.0.walkList == w.walkList[1..]
      && r.0.destination == w.walkList[0]
      && r.0.distance == g.length(Sub(w.walkList[0], w.node.position))
      && r.0.direction == g.normalised(Sub(w.walkList[0], w.node.position))
    ensures r.1 ==> (r.0.direction == Zero <==> r.0.destination == w.node.position)
    ensures r.1 ==> (r.0.direction != Zero <==> r.0.distance > 0.0)
    ensures r.0.node == w.node && r.0.walkSpeed == w.walkSpeed && r.0.clip == w.clip
  {
    if w.walkList == [] then
      (w, false)
    else
      var dest := w.walkList[0];
      var offset := Sub(dest, w.node.position);
      (w.(destination := dest, walkList := w.walkList[1..],
          direction := g.normalised(offset), distance := g.length(offset)), true)
  }

  /** `rest` is what is left of `route` after some waypoints were taken from
      its front, in order. */
  ghost predicate SuffixOf(rest: seq<Vec3>, route: seq<Vec3>) {
    |rest| <= |route| && rest == route[|route| - |rest|..]
  }

  /** Popping the front of a suffix leaves a suffix one shorter. */
  lemma SuffixOfTail(rest: seq<Vec3>, route: seq<Vec3>)
    requires SuffixOf(rest, route) && rest != []
    ensures SuffixOf(rest[1..], route)
    ensures rest[0] == route[|route| - |rest|]
  {
    var k := |route| - |rest|;
    assert rest[1..] == route[k + 1..];
  }
}
